=== FILE: README.md ===
# canvasPan in Dafny

canvasPan draws a board of image "blocks" on an HTML canvas. The blocks come
in groups. Each group has a headline and one row of images, and each image
has a background card and two wrapped text labels. The user pans the board
by dragging with the space bar held, and zooms toward the pointer with the
wheel while control is held. This project models the core of `js/main.js`:

- **`ViewTransform`** (`view.dfy`) covers the `view` object. Class `View`
  holds the scale, the origin and the `dirty` flag. It also holds the
  six-element canvas matrix, as an array that `Update` rewrites in place.
  - `Valid()` says that a clean view's matrix is `[scale, 0, 0, scale, x, y]`.
  - `Pan`, `ScaleAt` and `Reset` first bring a stale matrix up to date, as
    the source does, then change the state and mark the view dirty.
  - `ToScreen` and `ToBoard` are the matrix's action on points and its
    inverse. With them, "zoom toward the cursor" is proved as a property of
    the arithmetic in `scaleAt`.
- **`TextWrap`** (`textwrap.dfy`) covers `wrapText`.
  - `Split` and `Join` follow JavaScript's `split`: empty pieces are kept,
    and the empty string gives one empty piece.
  - `WrapFrom` is the greedy line breaker as a function, and `LinesAt` lays
    lines out one line height apart. `GreedyBreaks` states the greedy rule:
    a line is committed only when the next line's first word would not fit
    on it.
  - Method `WrapText` is the source's loop. It is proved to emit exactly
    `LinesAt(WrapLines(...))`, and the wrapping properties are proved about
    `WrapLines`.
  - `measureText` is a parameter `measure: string -> int`.
- **`Layout`** (`layout.dfy`) covers `drawImages`.
  - Class `Board` holds the global extents `boardWidth` and `boardHeight`.
  - `DrawImages` runs the source's nested loops. The inner loop is method
    `LayoutRow`, and one item's drawing is method `DrawItem`.
  - The canvas calls come back as data: each drawn item's image rectangle,
    its background card and its two lists of label `fillText` calls, plus
    the headline calls.
  - The spec functions are folds over a prefix of the items (`Advance`,
    `RowHeight`, `RowWidth`, `RowPlaced`) or of the groups (`Stack`,
    `BoardPlaced`, `BoardWidth`, `BoardHeight`).
- **`Page`** (`page.dfy`) covers `render`, `drawCanvas` and the event
  handlers. Class `Page` holds the `mouse` record, the `panEnable` and
  `zoomEnable` modes, the view and the board. An event is a method call that
  takes the event's fields as parameters. `render` returns a `Frame`, the
  data of what it draws.
- **`Settings`** holds the constants of `settings` and the layout literals
  `imgBgHeight = 200` and `textLineHeight = 24`. **`Wrappers`** holds
  `Option`.

Facts about the code that the model keeps:

- **Second item of a row.** The second image of a row is at x = 450 =
  250 + 100 + 100, because the advance at `js/main.js:149` adds the gutter
  and the first image's width (`TwoImageRow`).
- **Board extents.** The extents are running maxima that are never reset
  between render passes (`js/main.js:152` and `js/main.js:156`). They start
  from 0 and 1000.
- **Zoom limits.** `maxZoom` and `minZoom` are tested before the step is
  applied (`js/main.js:293` and `js/main.js:301`), so the scale can end one
  step past either limit. The proved range is
  `minZoom / 1.1 <= scale <= 1.1 * maxZoom` (`ZoomBounded`).
- **Board size in a frame.** `render` calls `drawBoard` before `drawImages`
  grows the extents (`js/main.js:265-267`), so a frame shows the extents of
  the previous pass (`FrameOf`, `RedrawSettles`).

## Model

| member | source | states |
|---|---|---|
| TextWrap.Split | js/main.js:69-71 | `split` always yields at least one piece, even for the empty string |
| TextWrap.SplitJoin | js/main.js:69-71 | no piece contains the separator, and joining the pieces with it gives back the text |
| TextWrap.JoinSplit | js/main.js:69-71 | splitting a join of separator-free pieces gives back exactly those pieces |
| TextWrap.LinesAtIndex | js/main.js:76-87 | the k-th `fillText` call draws the k-th line at the same x and at `y + k * line_height` |
| TextWrap.BelowCount | js/main.js:79-86 | after the lines are drawn, `y` has moved down by exactly one `line_height` per emitted line |
| TextWrap.LinesAtAppend | js/main.js:70-88 | drawing two runs of lines in sequence is the same as drawing them as one run, with the second starting where the first left `y` |
| TextWrap.WrapWords | js/main.js:71-87 | the loop over the words of one paragraph emits exactly the greedy lines `WrapFrom` at successive line heights, and returns the `y` below them |
| TextWrap.WrapText | js/main.js:67-89 | `wrapText` emits exactly the lines `WrapLines(text)` at x, starting at y and one `line_height` apart |
| TextWrap.WrapKeepsWords | js/main.js:72-84 | read line by line, the wrapped lines hold the pending line, then the remaining words in their original order, each followed by one space |
| TextWrap.WrapFromFits | js/main.js:73-83 | every emitted line fits `line_width` under `measure`, or is a single word with its space |
| TextWrap.WrapFromStarts | js/main.js:72-83 | at least one line is emitted, and the first one starts with the pending line |
| TextWrap.WrapFromGreedy | js/main.js:73-83 | the greedy rule: a line is committed only when the word that opens the next line, with its space, would make it wider than `line_width` |
| TextWrap.ParagraphLines | js/main.js:71-87 | a paragraph opens a new line that begins with its first word; its lines hold exactly its words in order; each line fits or is a single word; every break inside it is forced by the next word overflowing |
| TextWrap.WrapParagraphsProps | js/main.js:70-88 | the paragraphs from `i` on are wrapped into at least as many lines as there are paragraphs, and their words are kept in order; every line fits or is one word |
| TextWrap.WrapParagraphsGreedy | js/main.js:70-88 | among the lines of paragraphs `i` onward, every break is forced by the next word overflowing the line or is the first line of a later paragraph |
| TextWrap.WrapLinesProps | js/main.js:67-89 | all words of the text are drawn in order, each with a trailing space; there is at least one line per paragraph; every line fits `line_width` or holds a single word; every line break is a paragraph boundary or is forced by the next word not fitting |
| TextWrap.TwoWordsPerLine | js/main.js:71-87 | four four-letter words at width 10, one unit per character, wrap into the two lines `"aaaa bbbb "` and `"cccc dddd "` |
| Layout.Board.constructor | js/main.js:7-8 | the board starts 0 wide and 1000 high |
| Layout.Board.DrawImages | js/main.js:92-158 | one layout pass: it emits the headlines and the placements of the spec functions, and raises the extents to `BoardWidth` and `BoardHeight` of the old extents; they never decrease |
| Layout.Board.LayoutRow | js/main.js:98-154 | the inner loop places the row's drawn items as `RowPlaced`, computes `maxHeight` as `RowHeight`, and raises `boardWidth` as `RowWidth` |
| Layout.DrawItem | js/main.js:114-146 | a loaded item draws its background card, its two wrapped labels under the image, and the image itself, as `PlaceItem` |
| Layout.AdvanceMonotone | js/main.js:149 | the horizontal cursor `xPos` never moves left |
| Layout.RowPlacedStep | js/main.js:110-153 | a drawn item appends its own placement to the row, and an item without an image appends nothing |
| Layout.RowPlacedItems | js/main.js:110-153 | every placement belongs to a drawn item of its group; its image is at `outerMargX + innerMargX` plus the width and gutter of each earlier drawn item, on the row's y |
| Layout.RowPlacedOrdered | js/main.js:110 | the placements of a row come in item order, at most one per item |
| Layout.RowPlacedComplete | js/main.js:110-114 | every item whose image is present is placed |
| Layout.PlaceItemImage | js/main.js:116-144 | the image is at `(xPos + outerMargX + innerMargX, yPos)` at its natural size; its background card's bottom is `imgBgHeight` below the image's bottom, and the card's right edge lies inside the image |
| Layout.AbsentTakesNoSpace | js/main.js:114-153 | removing an item without an image changes neither the row's advance nor its height |
| Layout.RowHeightIsMax | js/main.js:99-147 | `maxHeight` is the largest `img.height + 200` over the drawn items, or 0 when none is drawn |
| Layout.RowWidthClosedForm | js/main.js:149-152 | the running maximum of `boardWidth` over a row is the width at its last drawn item, or unchanged when nothing is drawn |
| Layout.BoardGrows | js/main.js:152-156 | the extents never decrease, and after a pass they are at least every group's `boardHeight` value and every drawing group's `boardWidth` value |
| Layout.StackMonotone | js/main.js:155 | `yPos` at a headline never moves up from one group to the next |
| Layout.CardSpan | js/main.js:116-123 | the columns the card paints lie within the image's columns, and the card starts no higher than the image, exactly when the image is at least 50 wide; a narrower image gets a card of negative width that sticks out to its left |
| Layout.ItemWithin | js/main.js:116-152 | one drawn image, and its card's bottom, lie inside its row's share of the board; so do the card's sides when the image is at least 50 wide |
| Layout.RowWithin | js/main.js:116-152 | every image of a row, and its card's bottom, lie within the width the row raises the board to and above the row's bottom; so does the whole card when the image is at least 50 wide |
| Layout.PlacedWithinBoard | js/main.js:93-157 | every drawn image, and its card's bottom, lie inside the board rectangle, at least the inner margin from each edge; the whole card does when the image is at least 50 wide |
| Layout.ItemInRow | js/main.js:144-147 | a drawn image sits on its row's y and ends no lower than the row's tallest card |
| Layout.RowOnLine | js/main.js:107-147 | every card of a row has the row's group and y, and ends no lower than the tallest card |
| Layout.GroupRow | js/main.js:100-155 | every image of a group's row sits `headlineMargin` below the group's headline, and its card ends at least `gutterY` above the next headline |
| Layout.BoardPlacedRows | js/main.js:93-155 | every image sits `headlineMargin` below its own group's headline, and its card ends at least `gutterY` above the next headline, so each group's images and card bottoms stay in that group's band between its headline and the next (the labels are not bounded) |
| Layout.RowWidthMax | js/main.js:152 | a row's running maximum commutes with taking a maximum first |
| Layout.BoardMax | js/main.js:152-156 | a pass's extents commute with taking a maximum first |
| Layout.LayoutIdempotent | js/main.js:152-156 | a second pass over the same groups leaves the extents where the first pass put them |
| Layout.TwoImageRow | js/main.js:116-152 | images 100 and 150 wide in one row are at x = 250 and x = 450, and the board becomes at least 650 wide (exactly 650 from a board 650 wide or narrower) |
| ViewTransform.ToBoard | js/main.js:206-212 | the board point shown at a screen point; the matrix maps it back to that screen point |
| ViewTransform.ScaleAtKeepsAnchor | js/main.js:219-226 | after `scaleAt(at, amount)` the board point under `at` is still under `at` |
| ViewTransform.ScaleAtScalesAbout | js/main.js:219-226 | after `scaleAt`, every on-screen distance from `at` is multiplied by `amount` |
| ViewTransform.ScaleAtUndo | js/main.js:219-226 | `scaleAt(at, a)` followed by `scaleAt(at, 1 / a)` restores scale and position |
| ViewTransform.PanTranslates | js/main.js:213-218 | panning shifts every board point on screen by the pan amount |
| ViewTransform.View.constructor | js/main.js:188-193 | the matrix starts as the identity, the origin at (0, 0), the scale at `scaleInit`, and the view dirty |
| ViewTransform.View.AttachContext | js/main.js:195-198 | setting the context marks the view dirty |
| ViewTransform.View.IsDirty | js/main.js:205 | reports the dirty flag |
| ViewTransform.View.Update | js/main.js:206-212 | the matrix becomes `[scale, 0, 0, scale, x, y]` and the view is clean |
| ViewTransform.View.Apply | js/main.js:199-202 | the transform handed to the context is always the current scale and origin, and the view is clean afterwards |
| ViewTransform.View.Pan | js/main.js:213-218 | the origin moves by the amount, the scale is kept, the view becomes dirty, and the matrix holds the pre-pan state |
| ViewTransform.View.ScaleAt | js/main.js:219-226 | the scale is multiplied by `amount`, the origin becomes `at - (at - pos) * amount`, and the view becomes dirty |
| ViewTransform.View.Reset | js/main.js:227-233 | the scale returns to `scaleInit`, the origin to (0, 0), and the view becomes dirty, whatever the prior state |
| Page.WheelDirection | js/main.js:291-306 | with zoom enabled, wheel up zooms in and wheel down zooms out, unless past the limit; with zoom disabled the scale is unchanged; a scale past a limit never moves further past it |
| Page.WheelKeepsZoomBounded | js/main.js:291-306 | one wheel event keeps the scale within `minZoom / 1.1` and `1.1 * maxZoom` |
| Page.WheelSeriesBounded | js/main.js:287-309 | any series of wheel events keeps the scale within that range, and so positive |
| Page.RedrawSettles | js/main.js:259-268 | from the second render on, the extents no longer change and the board drawn holds every image and its card's bottom, and the whole card when the image is at least 50 wide |
| Page.Page.constructor | js/main.js:6-13 | nothing is pressed or enabled, the board is 0 by 1000, and the view is at its initial state and dirty because a context was attached |
| Page.Page.Render | js/main.js:259-268 | the frame has the current view transform, the board with the extents from before the pass, and the layout; the view is clean and the extents have grown |
| Page.Page.DrawCanvas | js/main.js:251-257 | renders exactly when the view is dirty, otherwise draws nothing and changes nothing; afterwards the view is clean |
| Page.Page.MouseEvent | js/main.js:270-285 | mousedown presses the button and mouseup or mouseout releases it; the pointer moves; the view pans by the pointer's motion exactly when the button is down and panning is enabled |
| Page.Page.MouseWheelEvent | js/main.js:287-309 | the view zooms about the pointer by `WheelFactor` when it allows a step; otherwise the view is unchanged; the zoom range is kept |
| Page.Page.OnKeyDown | js/main.js:320-328 | key 32 enables panning and key 17 enables zooming; other keys change neither |
| Page.Page.OnKeyUp | js/main.js:330-334 | any key-up disables both panning and zooming |
| Page.Page.OnResetClick | js/main.js:336-338 | the reset button calls `view.reset` (`js/main.js:227-233`), returning the view to its initial scale and origin and marking it dirty |

## Left out

- **Asset loading** (`fetch`, `new Image()`, `Promise.all`, `loadImages`). This is asynchronous I/O. The groups reach the model already decoded, and an image that has not arrived is `None`.
- **Groups fixed per page.** The groups are fixed when the page is built, so images that arrive between renders cannot be expressed at page level. The source calls `render()` after each group loads (`js/main.js:57`). `RedrawSettles` therefore holds only while the groups do not change.
- **Missing labels.** The `client` and `blockdescription` labels are assumed present and of type string. The TypeError that `split` throws on a missing label (`js/main.js:69`, called from `js/main.js:132` and `js/main.js:138`) is not modelled. In the source it aborts `drawImages` in the middle of a group: that item's `boardWidth` update and all later groups are skipped. Through `drawCanvas` it also skips the `requestAnimationFrame` rescheduling (`js/main.js:254-256`).
- **`renderGrid`.** It strokes the background grid lines. It produces only pixels and changes no state.
- **Canvas styling and pixels.** Fill and stroke colours, fonts, shadow blur, `drawImage`'s pixels, and the identity `setTransform` and `clearRect` at the start of `render` are left out. Only coordinates are kept.
- **Label extents.** The two wrapped labels are not bounded by the card, the board or the row. The text column starts 100 px right of the image (`js/main.js:129`) and is `img.width - 200` wide (`js/main.js:127`), so it ends 50 px inside the card's right edge (`js/main.js:123`). A single word wider than `textMaxWidth` runs past the text column, and past the card's right edge once it is more than 50 px wider than `textMaxWidth`. A description that wraps to many lines runs below its card and into the next group. The two labels overlap when the client label wraps to three or more lines. Its lines are drawn 24 px apart from `y + h + 70` (`js/main.js:132`), so its third line is at `y + h + 118`. That lies between the description's first two lines at `y + h + 100` and `y + h + 124` (`js/main.js:135`). The model gives every label line's position exactly (`LinesAtIndex`), but proves no bound on it.
- **Drawing order.** A `Frame` lists the headlines and the placements separately. The source's interleaving is therefore not kept: headline, then per item the card, client label, description and image (`js/main.js:106-144`). Neither is the stacking (z-order) that interleaving produces on the canvas.
- **Host plumbing.** `requestAnimationFrame` rescheduling, `onWindowResize`, `buildEventListeners` and the cursor-style DOM writes are left out. These are host event plumbing.
- **Event consumption.** `preventDefault` and the `false` the wheel handler returns only affect the browser's scrolling.
- **Text measurement and fonts.** `measureText` is an uninterpreted parameter, one per label font.
- **Floating point.** `scale` and the position are exact `real`s, pixel sizes are unbounded integers, and `1 / 1.1` is exact. The proved zoom range and anchor property hold exactly here. With IEEE doubles they hold only up to rounding.
- **Accessors.** The `scale` and `position` getters of `view` are read as the fields `View.scale`, `View.x` and `View.y`.
- **Source shape.** `wrapText`'s inner loop over the words of a paragraph is the separate method `TextWrap.WrapWords`. `drawImages`'s inner loop is `Layout.Board.LayoutRow`, and one item's drawing is `Layout.DrawItem`. The source has each as one function body.

=== FILE: layout.dfy ===
/** The flow layout of `drawImages`: groups are stacked top to bottom, each
    under its headline; the items of a group are laid out left to right in
    one row; items whose image has not arrived are skipped; the board
    extents grow as running maxima. The spec functions below are folds over
    a prefix (`items[..j]`, `groups[..i]`), the shape the loops keep. */
module Layout {
  import opened Settings
  import opened Wrappers
  import opened TextWrap

  /** A decoded image, by its natural size in pixels. */
  datatype Image = Image(width: nat, height: nat)

  /** One entry of a block group; `img` is `None` until its image loaded. */
  datatype Item = Item(img: Option<Image>, client: string, description: string)

  datatype Group = Group(headline: string, items: seq<Item>)

  datatype Rect = Rect(x: int, y: int, width: int, height: int)

  /** What is drawn for one item: the image, its background card and the
      two wrapped labels under it. */
  datatype Placement = Placement(group: nat, item: nat, image: Rect, background: Rect,
                                 client: seq<TextCall>, body: seq<TextCall>)

  /** How far an item moves the horizontal cursor. */
  function Step(it: Item): nat
  {
    if it.img.Some? then GutterX + it.img.value.width else 0
  }

  /** `xPos` after the first `j` items: the sum of `width + gutterX` over
      the drawn ones. */
  function Advance(items: seq<Item>, j: nat): nat
    requires j <= |items|
  {
    if j == 0 then 0 else Advance(items, j - 1) + Step(items[j - 1])
  }

  /** `maxHeight` after the first `j` items. */
  function RowHeight(items: seq<Item>, j: nat): nat
    requires j <= |items|
  {
    if j == 0 then 0
    else
      match items[j - 1].img
      case Some(img) => Max(RowHeight(items, j - 1), img.height + ImgBgHeight)
      case None => RowHeight(items, j - 1)
  }

  /** `boardWidth` after the first `j` items, starting from `bw`. */
  function RowWidth(items: seq<Item>, j: nat, bw: int): int
    requires j <= |items|
  {
    if j == 0 then bw
    else if items[j - 1].img.Some? then Max(RowWidth(items, j - 1, bw), Advance(items, j) - GutterX + InnerMargX * 2)
    else RowWidth(items, j - 1, bw)
  }

  /** Everything drawn for a loaded item whose row starts at `yPos` and
      which sits `xPos` right of the row's start. */
  function PlaceItem(g: nat, j: nat, xPos: int, yPos: int, it: Item, measureClient: string -> int, measureBody: string -> int): Placement
    requires it.img.Some?
  {
    var img := it.img.value;
    var x := xPos + (OuterMargX + InnerMargX);
    var textMaxWidth := img.width - 200;
    var textX := x + 100;
    Placement(g, j,
              Rect(x, yPos, img.width, img.height),
              Rect(x + 50, yPos + 100, img.width - 100, img.height + ImgBgHeight - 100),
              LinesAt(WrapLines(it.client, measureClient, textMaxWidth), textX, yPos + img.height + 70, TextLineHeight),
              LinesAt(WrapLines(it.description, measureBody, textMaxWidth), textX, yPos + img.height + 100, TextLineHeight))
  }

  /** The placements of the drawn items among the first `j` of group `g`. */
  function RowPlaced(items: seq<Item>, j: nat, g: nat, yPos: int, measureClient: string -> int, measureBody: string -> int): seq<Placement>
    requires j <= |items|
  {
    if j == 0 then []
    else
      RowPlaced(items, j - 1, g, yPos, measureClient, measureBody) +
      (if items[j - 1].img.Some? then [PlaceItem(g, j - 1, Advance(items, j - 1), yPos, items[j - 1], measureClient, measureBody)] else [])
  }

  /** How far a group moves `yPos`: headline, tallest card, gutter. */
  function GroupDepth(grp: Group): int
  {
    HeadlineMargin + RowHeight(grp.items, |grp.items|) + GutterY
  }

  /** The sum of the depths of the first `i` groups. */
  function Stack(groups: seq<Group>, i: nat): int
    requires i <= |groups|
  {
    if i == 0 then 0 else Stack(groups, i - 1) + GroupDepth(groups[i - 1])
  }

  /** `yPos` at the headline of group `i`. */
  function HeadlineY(groups: seq<Group>, i: nat): int
    requires i <= |groups|
  {
    OuterMargY + InnerMargY + Stack(groups, i)
  }

  /** The value `boardHeight` is raised to after group `i`. */
  function HeightNeeded(groups: seq<Group>, i: nat): int
    requires i < |groups|
  {
    HeadlineY(groups, i + 1) - GutterY - OuterMargY + InnerMargY
  }

  /** The value `boardWidth` is raised to by a row with a drawn item. */
  function WidthNeeded(items: seq<Item>): int
  {
    Advance(items, |items|) - GutterX + InnerMargX * 2
  }

  function Headlines(groups: seq<Group>, i: nat): seq<TextCall>
    requires i <= |groups|
  {
    if i == 0 then []
    else Headlines(groups, i - 1) + [TextCall(groups[i - 1].headline, OuterMargX + InnerMargX, HeadlineY(groups, i - 1))]
  }

  function BoardPlaced(groups: seq<Group>, i: nat, measureClient: string -> int, measureBody: string -> int): seq<Placement>
    requires i <= |groups|
  {
    if i == 0 then []
    else
      BoardPlaced(groups, i - 1, measureClient, measureBody) +
      RowPlaced(groups[i - 1].items, |groups[i - 1].items|, i - 1, HeadlineY(groups, i - 1) + HeadlineMargin, measureClient, measureBody)
  }

  function BoardWidth(groups: seq<Group>, i: nat, bw: int): int
    requires i <= |groups|
  {
    if i == 0 then bw else RowWidth(groups[i - 1].items, |groups[i - 1].items|, BoardWidth(groups, i - 1, bw))
  }

  function BoardHeight(groups: seq<Group>, i: nat, bh: int): int
    requires i <= |groups|
  {
    if i == 0 then bh else Max(BoardHeight(groups, i - 1, bh), HeightNeeded(groups, i - 1))
  }

  /** One group of a layout pass: its headline at `HeadlineY(groups, i)`,
      its row `headlineMargin` below, and the next headline the row's
      height and `gutterY` further down; each fold grows by that group. */
  lemma GroupStep(groups: seq<Group>, i: nat, bw: int, bh: int, measureClient: string -> int, measureBody: string -> int)
    requires i < |groups|
    ensures HeadlineY(groups, i + 1) == HeadlineY(groups, i) + HeadlineMargin + RowHeight(groups[i].items, |groups[i].items|) + GutterY
    ensures Headlines(groups, i + 1) == Headlines(groups, i) + [TextCall(groups[i].headline, OuterMargX + InnerMargX, HeadlineY(groups, i))]
    ensures BoardPlaced(groups, i + 1, measureClient, measureBody) ==
            BoardPlaced(groups, i, measureClient, measureBody) +
            RowPlaced(groups[i].items, |groups[i].items|, i, HeadlineY(groups, i) + HeadlineMargin, measureClient, measureBody)
    ensures BoardWidth(groups, i + 1, bw) == RowWidth(groups[i].items, |groups[i].items|, BoardWidth(groups, i, bw))
    ensures BoardHeight(groups, i + 1, bh) == Max(BoardHeight(groups, i, bh), HeadlineY(groups, i + 1) - GutterY - OuterMargY + InnerMargY)
  {
  }

  /** The board extents, kept across layout passes. */
  class Board {
    var width: int
    var height: int

    constructor ()
      ensures width == BoardWidthInit && height == BoardHeightInit
    {
      width := BoardWidthInit;
      height := BoardHeightInit;
    }

    /** `drawImages()`: lays out every group, returns what it draws, and
        raises the board extents to cover the layout. */
    method DrawImages(groups: seq<Group>, measureClient: string -> int, measureBody: string -> int)
      returns (headlines: seq<TextCall>, placed: seq<Placement>)
      modifies this
      ensures headlines == Headlines(groups, |groups|)
      ensures placed == BoardPlaced(groups, |groups|, measureClient, measureBody)
      ensures width == BoardWidth(groups, |groups|, old(width))
      ensures height == BoardHeight(groups, |groups|, old(height))
      ensures width >= old(width) && height >= old(height)
    {
      var yPos := OuterMargY + InnerMargY;
      headlines, placed := [], [];
      var i := 0;
      while i < |groups|
        invariant 0 <= i <= |groups|
        invariant yPos == HeadlineY(groups, i)
        invariant headlines == Headlines(groups, i)
        invariant placed == BoardPlaced(groups, i, measureClient, measureBody)
        invariant width == BoardWidth(groups, i, old(width))
        invariant height == BoardHeight(groups, i, old(height))
      {
        GroupStep(groups, i, old(width), old(height), measureClient, measureBody);
        headlines := headlines + [TextCall(groups[i].headline, OuterMargX + InnerMargX, yPos)];
        yPos := yPos + HeadlineMargin;
        var row, maxHeight := LayoutRow(groups[i].items, i, yPos, measureClient, measureBody);
        placed := placed + row;
        yPos := yPos + maxHeight + GutterY;
        height := Max(height, yPos - GutterY - OuterMargY + InnerMargY);
        i := i + 1;
      }
      BoardGrows(groups, |groups|, old(width), old(height));
    }

    /** The inner loop of `drawImages()` over the items of group `g`, whose
        row starts at `yPos`: returns the placements and `maxHeight`, and
        raises `width` as the row extends. */
    method LayoutRow(items: seq<Item>, g: nat, yPos: int, measureClient: string -> int, measureBody: string -> int)
      returns (row: seq<Placement>, maxHeight: nat)
      modifies `width
      ensures row == RowPlaced(items, |items|, g, yPos, measureClient, measureBody)
      ensures maxHeight == RowHeight(items, |items|)
      ensures width == RowWidth(items, |items|, old(width))
    {
      var xPos := 0;
      maxHeight := 0;
      row := [];
      var j := 0;
      while j < |items|
        invariant 0 <= j <= |items|
        invariant xPos == Advance(items, j)
        invariant maxHeight == RowHeight(items, j)
        invariant row == RowPlaced(items, j, g, yPos, measureClient, measureBody)
        invariant width == RowWidth(items, j, old(width))
      {
        match items[j].img {
          case Some(img) =>
            var placement := DrawItem(g, j, xPos, yPos, items[j], measureClient, measureBody);
            assert RowPlaced(items, j + 1, g, yPos, measureClient, measureBody) == row + [placement];
            row := row + [placement];
            maxHeight := Max(maxHeight, img.height + ImgBgHeight);
            xPos := xPos + GutterX + img.width;
            width := Max(width, xPos - GutterX + InnerMargX * 2);
          case None =>
        }
        j := j + 1;
      }
    }
  }

  /** The body of the inner loop of `drawImages()` for a loaded item: the
      background card, the two wrapped labels and the image itself, for an
      item `xPos` right of the row's start. */
  method DrawItem(g: nat, j: nat, xPos: int, yPos: int, it: Item, measureClient: string -> int, measureBody: string -> int)
    returns (placement: Placement)
    requires it.img.Some?
    ensures placement == PlaceItem(g, j, xPos, yPos, it, measureClient, measureBody)
  {
    var img := it.img.value;
    var imagePosX := xPos + (OuterMargX + InnerMargX);
    var background := Rect(imagePosX + 50, yPos + 100, img.width - 100, img.height + ImgBgHeight - 100);
    var textMaxWidth := img.width - 200;
    var textBodyPosX := imagePosX + 100;
    var client := WrapText(measureClient, it.client, textBodyPosX, yPos + img.height + 70, textMaxWidth, TextLineHeight);
    var textBodyPosY := yPos + img.height + 100;
    var body := WrapText(measureBody, it.description, textBodyPosX, textBodyPosY, textMaxWidth, TextLineHeight);
    placement := Placement(g, j, Rect(imagePosX, yPos, img.width, img.height), background, client, body);
  }

  // ---------------------------------------------------------------------
  // Properties of the layout

  lemma {:induction false} AdvanceMonotone(items: seq<Item>, j: nat, k: nat)
    requires j <= k <= |items|
    ensures Advance(items, j) <= Advance(items, k)
    decreases k - j
  {
    if j < k {
      AdvanceMonotone(items, j, k - 1);
    }
  }

  /** Every placement in `P` belongs to a drawn item of group `g` before
      `j` and is that item's layout at the cursor `Advance` reached before
      it. */
  predicate PlacesDrawnItems(P: seq<Placement>, items: seq<Item>, j: nat, g: nat, yPos: int, measureClient: string -> int, measureBody: string -> int)
    requires j <= |items|
  {
    forall k :: 0 <= k < |P| ==>
      P[k].group == g && P[k].item < j && items[P[k].item].img.Some? &&
      P[k] == PlaceItem(g, P[k].item, Advance(items, P[k].item), yPos, items[P[k].item], measureClient, measureBody)
  }

  predicate InItemOrder(P: seq<Placement>)
  {
    forall k, l :: 0 <= k < l < |P| ==> P[k].item < P[l].item
  }

  /** Every drawn item before `j` has a placement in `P`. */
  predicate CoversDrawn(P: seq<Placement>, items: seq<Item>, j: nat)
    requires j <= |items|
  {
    forall m :: 0 <= m < j && items[m].img.Some? ==> exists k :: 0 <= k < |P| && P[k].item == m
  }

  /** One step of `RowPlaced`: a drawn item appends its own placement, an
      absent one appends nothing. */
  lemma RowPlacedStep(items: seq<Item>, j: nat, g: nat, yPos: int, measureClient: string -> int, measureBody: string -> int)
    requires 0 < j <= |items|
    ensures var P := RowPlaced(items, j - 1, g, yPos, measureClient, measureBody);
            var Q := RowPlaced(items, j, g, yPos, measureClient, measureBody);
            if items[j - 1].img.Some? then
              |Q| == |P| + 1 && Q[..|P|] == P && Q[|P|].group == g && Q[|P|].item == j - 1 &&
              Q[|P|] == PlaceItem(g, j - 1, Advance(items, j - 1), yPos, items[j - 1], measureClient, measureBody)
            else Q == P
  {
    if items[j - 1].img.Some? {
      PlaceItemImage(g, j - 1, Advance(items, j - 1), yPos, items[j - 1], measureClient, measureBody);
    }
  }

  /** Horizontal placement: each placement of a row is the layout of a
      drawn item at the cursor the drawn items before it moved to. */
  lemma {:induction false} RowPlacedItems(items: seq<Item>, j: nat, g: nat, yPos: int, measureClient: string -> int, measureBody: string -> int)
    requires j <= |items|
    ensures PlacesDrawnItems(RowPlaced(items, j, g, yPos, measureClient, measureBody), items, j, g, yPos, measureClient, measureBody)
  {
    if j > 0 {
      RowPlacedItems(items, j - 1, g, yPos, measureClient, measureBody);
      RowPlacedStep(items, j, g, yPos, measureClient, measureBody);
      var P := RowPlaced(items, j - 1, g, yPos, measureClient, measureBody);
      var Q := RowPlaced(items, j, g, yPos, measureClient, measureBody);
      if items[j - 1].img.Some? {
        assert forall k :: 0 <= k < |P| ==> Q[k] == P[k] by {
          forall k | 0 <= k < |P| ensures Q[k] == P[k] {
            assert Q[k] == Q[..|P|][k];
          }
        }
      }
    }
  }

  /** The placements of a row come once per item, in item order. */
  lemma {:induction false} RowPlacedOrdered(items: seq<Item>, j: nat, g: nat, yPos: int, measureClient: string -> int, measureBody: string -> int)
    requires j <= |items|
    ensures InItemOrder(RowPlaced(items, j, g, yPos, measureClient, measureBody))
  {
    if j > 0 {
      RowPlacedOrdered(items, j - 1, g, yPos, measureClient, measureBody);
      RowPlacedItems(items, j - 1, g, yPos, measureClient, measureBody);
      RowPlacedStep(items, j, g, yPos, measureClient, measureBody);
      var P := RowPlaced(items, j - 1, g, yPos, measureClient, measureBody);
      var Q := RowPlaced(items, j, g, yPos, measureClient, measureBody);
      if items[j - 1].img.Some? {
        forall k, l | 0 <= k < l < |Q| ensures Q[k].item < Q[l].item {
          assert Q[k] == Q[..|P|][k];
          if l < |P| {
            assert Q[l] == Q[..|P|][l];
          }
        }
      }
    }
  }

  /** Every drawn item of a row is placed. */
  lemma {:induction false} RowPlacedComplete(items: seq<Item>, j: nat, g: nat, yPos: int, measureClient: string -> int, measureBody: string -> int)
    requires j <= |items|
    ensures CoversDrawn(RowPlaced(items, j, g, yPos, measureClient, measureBody), items, j)
  {
    if j > 0 {
      RowPlacedComplete(items, j - 1, g, yPos, measureClient, measureBody);
      RowPlacedStep(items, j, g, yPos, measureClient, measureBody);
      var P := RowPlaced(items, j - 1, g, yPos, measureClient, measureBody);
      var Q := RowPlaced(items, j, g, yPos, measureClient, measureBody);
      forall m | 0 <= m < j && items[m].img.Some?
        ensures exists k :: 0 <= k < |Q| && Q[k].item == m
      {
        if m == j - 1 {
          assert Q[|P|].item == m;
        } else {
          var k :| 0 <= k < |P| && P[k].item == m;
          if items[j - 1].img.Some? {
            assert Q[k] == Q[..|P|][k];
          }
          assert Q[k].item == m;
        }
      }
    }
  }

  /** A drawn item's image sits at `outerMargX + innerMargX` plus the
      widths and gutters of the drawn items before it, on the row's line,
      at its natural size; its card extends `imgBgHeight` below it. */
  lemma PlaceItemImage(g: nat, j: nat, xPos: int, yPos: int, it: Item, measureClient: string -> int, measureBody: string -> int)
    requires it.img.Some?
    ensures var p := PlaceItem(g, j, xPos, yPos, it, measureClient, measureBody);
            p.group == g && p.item == j &&
            p.image == Rect(OuterMargX + InnerMargX + xPos, yPos, it.img.value.width, it.img.value.height) &&
            p.background.y + p.background.height == yPos + it.img.value.height + ImgBgHeight &&
            p.background.x + p.background.width < p.image.x + p.image.width
  {
  }

  /** `items` without the entry at `k`. */
  function Remove(items: seq<Item>, k: nat): seq<Item>
    requires k < |items|
  {
    items[..k] + items[k + 1..]
  }

  lemma {:induction false} RowAgree(a: seq<Item>, b: seq<Item>, j: nat)
    requires j <= |a| && j <= |b|
    requires forall m :: 0 <= m < j ==> a[m] == b[m]
    ensures Advance(a, j) == Advance(b, j) && RowHeight(a, j) == RowHeight(b, j)
  {
    if j > 0 {
      RowAgree(a, b, j - 1);
    }
  }

  /** An item whose image is absent takes no horizontal space and does not
      affect the row's height: the row measures the same without it. */
  lemma {:induction false} AbsentTakesNoSpace(items: seq<Item>, k: nat, j: nat)
    requires k < j <= |items|
    requires items[k].img.None?
    ensures Advance(items, j) == Advance(Remove(items, k), j - 1)
    ensures RowHeight(items, j) == RowHeight(Remove(items, k), j - 1)
  {
    var r := Remove(items, k);
    if j == k + 1 {
      RowAgree(items, r, k);
    } else {
      AbsentTakesNoSpace(items, k, j - 1);
      assert r[j - 2] == items[j - 1];
    }
  }

  /** The row height is the tallest drawn card (image height plus the
      background extension), or 0 when nothing in the row is drawn. */
  lemma {:induction false} RowHeightIsMax(items: seq<Item>, j: nat)
    requires j <= |items|
    ensures forall m :: 0 <= m < j && items[m].img.Some? ==> items[m].img.value.height + ImgBgHeight <= RowHeight(items, j)
    ensures (RowHeight(items, j) == 0 && forall m :: 0 <= m < j ==> items[m].img.None?) ||
            exists m :: 0 <= m < j && items[m].img.Some? && RowHeight(items, j) == items[m].img.value.height + ImgBgHeight
  {
    if j > 0 {
      RowHeightIsMax(items, j - 1);
    }
  }

  predicate AnyDrawn(items: seq<Item>, j: nat)
    requires j <= |items|
  {
    exists m :: 0 <= m < j && items[m].img.Some?
  }

  /** The running maximum of `boardWidth` over a row equals the width at the
      row's last drawn item: the horizontal cursor only moves right. */
  lemma {:induction false} RowWidthClosedForm(items: seq<Item>, j: nat, bw: int)
    requires j <= |items|
    ensures RowWidth(items, j, bw) == if AnyDrawn(items, j) then Max(bw, Advance(items, j) - GutterX + InnerMargX * 2) else bw
  {
    if j > 0 {
      RowWidthClosedForm(items, j - 1, bw);
      AdvanceMonotone(items, j - 1, j);
      if items[j - 1].img.Some? {
        assert AnyDrawn(items, j);
      } else if AnyDrawn(items, j) {
        var m :| 0 <= m < j && items[m].img.Some?;
        assert m < j - 1;
        assert AnyDrawn(items, j - 1);
      } else {
        assert !AnyDrawn(items, j - 1);
      }
    }
  }

  /** The board extents never shrink, and after a pass they reach the
      per-group values of `boardWidth` (for a group with a drawn item) and
      of `boardHeight`. */
  lemma {:induction false} BoardGrows(groups: seq<Group>, i: nat, bw: int, bh: int)
    requires i <= |groups|
    ensures BoardWidth(groups, i, bw) >= bw && BoardHeight(groups, i, bh) >= bh
    ensures forall g :: 0 <= g < i ==> BoardHeight(groups, i, bh) >= HeightNeeded(groups, g)
    ensures forall g :: 0 <= g < i && AnyDrawn(groups[g].items, |groups[g].items|) ==>
              BoardWidth(groups, i, bw) >= WidthNeeded(groups[g].items)
  {
    if i > 0 {
      BoardGrows(groups, i - 1, bw, bh);
      var items := groups[i - 1].items;
      RowWidthClosedForm(items, |items|, BoardWidth(groups, i - 1, bw));
    }
  }

  lemma {:induction false} StackMonotone(groups: seq<Group>, i: nat, k: nat)
    requires i <= k <= |groups|
    ensures Stack(groups, i) <= Stack(groups, k)
    decreases k - i
  {
    if i < k {
      StackMonotone(groups, i, k - 1);
    }
  }

  /** The columns `fillRect` paints for the card of `p` lie within the
      image's columns, and the card starts no higher than the image. A
      negative card width paints leftwards from the card's x, as a canvas
      does. */
  predicate CardUnderImage(p: Placement)
  {
    var left := if p.background.width >= 0 then p.background.x else p.background.x + p.background.width;
    var right := if p.background.width >= 0 then p.background.x + p.background.width else p.background.x;
    p.image.x <= left && right <= p.image.x + p.image.width && p.image.y <= p.background.y
  }

  /** A card stays within its image's columns exactly when the image is at
      least 50 wide: the card is inset 50 on each side, so a narrower image
      gets a card of negative width that sticks out on the left. */
  lemma CardSpan(g: nat, j: nat, xPos: int, yPos: int, it: Item, measureClient: string -> int, measureBody: string -> int)
    requires it.img.Some?
    ensures CardUnderImage(PlaceItem(g, j, xPos, yPos, it, measureClient, measureBody)) <==> it.img.value.width >= 50
  {
    var p := PlaceItem(g, j, xPos, yPos, it, measureClient, measureBody);
    var w: int := it.img.value.width;
    assert p.background.x == p.image.x + 50 && p.background.width == w - 100;
    if w < 50 {
      assert p.background.width < 0;
      assert p.image.x + p.image.width < p.background.x;
    }
  }

  /** The image `p` places, with its background card below it, lies inside
      the board rectangle `drawBoard` fills at (outerMargX, outerMargY) for
      extents `width` by `height`, at least the inner margin away from its
      edges. The card's bottom always does; its sides do when the image is
      at least 50 wide. */
  predicate CardWithin(p: Placement, width: int, height: int)
  {
    OuterMargX + InnerMargX <= p.image.x &&
    p.image.x + p.image.width + InnerMargX <= OuterMargX + width &&
    OuterMargY + InnerMargY <= p.image.y &&
    p.image.y + p.image.height + ImgBgHeight + InnerMargY <= OuterMargY + height &&
    (p.image.width >= 50 ==> CardUnderImage(p))
  }

  /** The card of a drawn item lies within the width its row raises the
      board to and the height down to the row's tallest card. */
  lemma ItemWithin(items: seq<Item>, m: nat, g: nat, yPos: int, w0: int, measureClient: string -> int, measureBody: string -> int)
    requires m < |items| && items[m].img.Some?
    requires OuterMargY + InnerMargY <= yPos
    ensures CardWithin(PlaceItem(g, m, Advance(items, m), yPos, items[m], measureClient, measureBody),
                       RowWidth(items, |items|, w0), yPos + RowHeight(items, |items|) + InnerMargY - OuterMargY)
  {
    PlaceItemImage(g, m, Advance(items, m), yPos, items[m], measureClient, measureBody);
    CardSpan(g, m, Advance(items, m), yPos, items[m], measureClient, measureBody);
    RowWidthClosedForm(items, |items|, w0);
    RowHeightIsMax(items, |items|);
    AdvanceMonotone(items, m + 1, |items|);
    assert AnyDrawn(items, |items|);
  }

  /** Every card of a row starting at `yPos` lies within the width the row
      raises the board to and the height down to the row's tallest card. */
  lemma RowWithin(items: seq<Item>, g: nat, yPos: int, w0: int, measureClient: string -> int, measureBody: string -> int)
    requires OuterMargY + InnerMargY <= yPos
    ensures forall p :: p in RowPlaced(items, |items|, g, yPos, measureClient, measureBody) ==>
              CardWithin(p, RowWidth(items, |items|, w0), yPos + RowHeight(items, |items|) + InnerMargY - OuterMargY)
  {
    RowPlacedItems(items, |items|, g, yPos, measureClient, measureBody);
    var P := RowPlaced(items, |items|, g, yPos, measureClient, measureBody);
    forall p | p in P
      ensures CardWithin(p, RowWidth(items, |items|, w0), yPos + RowHeight(items, |items|) + InnerMargY - OuterMargY)
    {
      var k :| 0 <= k < |P| && P[k] == p;
      ItemWithin(items, p.item, g, yPos, w0, measureClient, measureBody);
    }
  }

  /** Every placement in `ps` lies inside a board of extents `w` by `h`. */
  predicate AllWithin(ps: seq<Placement>, w: int, h: int)
  {
    forall p :: p in ps ==> CardWithin(p, w, h)
  }

  /** Cards inside a board stay inside a board at least as large. */
  lemma AllWithinGrows(ps: seq<Placement>, w: int, h: int, w1: int, h1: int)
    requires AllWithin(ps, w, h) && w <= w1 && h <= h1
    ensures AllWithin(ps, w1, h1)
  {
  }

  lemma AllWithinAppend(ps: seq<Placement>, qs: seq<Placement>, w: int, h: int)
    requires AllWithin(ps, w, h) && AllWithin(qs, w, h)
    ensures AllWithin(ps + qs, w, h)
  {
  }

  /** Every drawn card lies inside the board as the layout pass leaves it. */
  lemma {:induction false} PlacedWithinBoard(groups: seq<Group>, i: nat, bw: int, bh: int, measureClient: string -> int, measureBody: string -> int)
    requires i <= |groups|
    ensures forall p :: p in BoardPlaced(groups, i, measureClient, measureBody) ==>
              CardWithin(p, BoardWidth(groups, i, bw), BoardHeight(groups, i, bh))
  {
    if i > 0 {
      PlacedWithinBoard(groups, i - 1, bw, bh, measureClient, measureBody);
      var items := groups[i - 1].items;
      var yPos := HeadlineY(groups, i - 1) + HeadlineMargin;
      var W0, H0 := BoardWidth(groups, i - 1, bw), BoardHeight(groups, i - 1, bh);
      var W, H := BoardWidth(groups, i, bw), BoardHeight(groups, i, bh);
      var Hr := yPos + RowHeight(items, |items|) + InnerMargY - OuterMargY;
      var A := BoardPlaced(groups, i - 1, measureClient, measureBody);
      var R := RowPlaced(items, |items|, i - 1, yPos, measureClient, measureBody);
      assert W == RowWidth(items, |items|, W0) && H == Max(H0, Hr);
      RowWidthClosedForm(items, |items|, W0);
      StackMonotone(groups, 0, i - 1);
      RowWithin(items, i - 1, yPos, W0, measureClient, measureBody);
      assert AllWithin(A, W0, H0);
      AllWithinGrows(A, W0, H0, W, H);
      assert AllWithin(R, W, Hr);
      AllWithinGrows(R, W, Hr, W, H);
      AllWithinAppend(A, R, W, H);
      assert BoardPlaced(groups, i, measureClient, measureBody) == A + R;
    }
  }

  /** A drawn item sits on its row's line, and its card ends no lower
      than the row's tallest card. */
  lemma ItemInRow(items: seq<Item>, m: nat, g: nat, yPos: int, measureClient: string -> int, measureBody: string -> int)
    requires m < |items| && items[m].img.Some?
    ensures var p := PlaceItem(g, m, Advance(items, m), yPos, items[m], measureClient, measureBody);
            p.image.y == yPos && p.image.y + p.image.height + ImgBgHeight <= yPos + RowHeight(items, |items|)
  {
    PlaceItemImage(g, m, Advance(items, m), yPos, items[m], measureClient, measureBody);
    RowHeightIsMax(items, |items|);
  }

  /** Every card of a row starting at `yPos` sits on that line and ends
      no lower than the row's tallest card. */
  lemma RowOnLine(items: seq<Item>, g: nat, yPos: int, measureClient: string -> int, measureBody: string -> int)
    ensures forall p :: p in RowPlaced(items, |items|, g, yPos, measureClient, measureBody) ==>
              p.group == g && p.image.y == yPos && p.image.y + p.image.height + ImgBgHeight <= yPos + RowHeight(items, |items|)
  {
    RowPlacedItems(items, |items|, g, yPos, measureClient, measureBody);
    var P := RowPlaced(items, |items|, g, yPos, measureClient, measureBody);
    forall p | p in P
      ensures p.group == g && p.image.y == yPos && p.image.y + p.image.height + ImgBgHeight <= yPos + RowHeight(items, |items|)
    {
      var k :| 0 <= k < |P| && P[k] == p;
      ItemInRow(items, p.item, g, yPos, measureClient, measureBody);
    }
  }

  /** The card `p` sits on the line `headlineMargin` below its group's
      headline and ends at least `gutterY` above the next group's
      headline. */
  predicate InGroupRow(groups: seq<Group>, p: Placement)
  {
    p.group < |groups| &&
    p.image.y == HeadlineY(groups, p.group) + HeadlineMargin &&
    p.image.y + p.image.height + ImgBgHeight + GutterY <= HeadlineY(groups, p.group + 1)
  }

  /** Every card of group `g`'s row lies on that group's row. */
  lemma GroupRow(groups: seq<Group>, g: nat, measureClient: string -> int, measureBody: string -> int)
    requires g < |groups|
    ensures forall p :: p in RowPlaced(groups[g].items, |groups[g].items|, g, HeadlineY(groups, g) + HeadlineMargin, measureClient, measureBody) ==>
              p.group == g && InGroupRow(groups, p)
  {
    var items := groups[g].items;
    var yPos := HeadlineY(groups, g) + HeadlineMargin;
    RowOnLine(items, g, yPos, measureClient, measureBody);
    assert HeadlineY(groups, g + 1) == yPos + RowHeight(items, |items|) + GutterY;
  }

  /** Vertical placement: the groups are stacked in order, every image on
      its group's row, and no card's bottom reaches into the next group. */
  lemma {:induction false} BoardPlacedRows(groups: seq<Group>, i: nat, measureClient: string -> int, measureBody: string -> int)
    requires i <= |groups|
    ensures forall p :: p in BoardPlaced(groups, i, measureClient, measureBody) ==> p.group < i && InGroupRow(groups, p)
  {
    if i > 0 {
      BoardPlacedRows(groups, i - 1, measureClient, measureBody);
      GroupRow(groups, i - 1, measureClient, measureBody);
    }
  }

  lemma {:induction false} RowWidthMax(items: seq<Item>, j: nat, a: int, b: int)
    requires j <= |items|
    ensures RowWidth(items, j, Max(a, b)) == Max(RowWidth(items, j, a), b)
  {
    if j > 0 {
      RowWidthMax(items, j - 1, a, b);
    }
  }

  lemma {:induction false} BoardMax(groups: seq<Group>, i: nat, a: int, b: int)
    requires i <= |groups|
    ensures BoardWidth(groups, i, Max(a, b)) == Max(BoardWidth(groups, i, a), b)
    ensures BoardHeight(groups, i, Max(a, b)) == Max(BoardHeight(groups, i, a), b)
  {
    if i > 0 {
      BoardMax(groups, i - 1, a, b);
      var items := groups[i - 1].items;
      RowWidthMax(items, |items|, BoardWidth(groups, i - 1, a), b);
    }
  }

  /** A second pass over the same groups leaves the extents where the first
      pass put them. */
  lemma LayoutIdempotent(groups: seq<Group>, bw: int, bh: int)
    ensures var w := BoardWidth(groups, |groups|, bw);
            BoardWidth(groups, |groups|, w) == w
    ensures var h := BoardHeight(groups, |groups|, bh);
            BoardHeight(groups, |groups|, h) == h
  {
    var w := BoardWidth(groups, |groups|, bw);
    var h := BoardHeight(groups, |groups|, bh);
    BoardGrows(groups, |groups|, bw, bh);
    BoardMax(groups, |groups|, bw, w);
    BoardMax(groups, |groups|, bh, h);
    assert Max(bw, w) == w && Max(bh, h) == h;
  }

  /** Two loaded images of widths 100 and 150 in one group: the first at
      x = 100 + 150 = 250, the second one width and one gutter further at
      x = 450; the board is then 650 wide, so the second image's right
      edge plus the inner margin meets the board's right edge exactly. */
  lemma TwoImageRow(h1: nat, h2: nat, bw: int, measureClient: string -> int, measureBody: string -> int)
    ensures var items := [Item(Some(Image(100, h1)), "", ""), Item(Some(Image(150, h2)), "", "")];
            var P := RowPlaced(items, 2, 0, 0, measureClient, measureBody);
            |P| == 2 && P[0].image.x == 250 && P[1].image.x == 450 &&
            RowWidth(items, 2, bw) == Max(bw, 650)
  {
    var items := [Item(Some(Image(100, h1)), "", ""), Item(Some(Image(150, h2)), "", "")];
    assert Advance(items, 1) == 200;
    assert Advance(items, 2) == 450;
    assert RowWidth(items, 1, bw) == Max(bw, 400);
    assert RowPlaced(items, 0, 0, 0, measureClient, measureBody) == [];
    var P1 := RowPlaced(items, 1, 0, 0, measureClient, measureBody);
    assert P1 == [PlaceItem(0, 0, 0, 0, items[0], measureClient, measureBody)];
  }
}

=== FILE: page.dfy ===
/** The page: the render pass, the redraw gate, and the mouse, wheel, key
    and button handlers that drive the view. Browser events arrive as
    method calls with the event's fields as parameters. */
module Page {
  import opened Settings
  import opened Wrappers
  import opened TextWrap
  import opened Layout
  import opened ViewTransform

  datatype MouseKind = MouseDown | MouseUp | MouseOut | MouseMove

  const KeySpace: int := 32
  const KeyControl: int := 17

  /** The scale range the wheel handler keeps the view in. The gate tests
      the scale before the step, so one step can cross a limit. */
  predicate ZoomBounded(s: real)
  {
    MinZoom / ZoomStep <= s <= MaxZoom * ZoomStep
  }

  /** The factor the wheel handler passes to `scaleAt`, or `None` when the
      event leaves the view alone: zooming is not enabled, or the scale is
      already past the limit in the wheel's direction. */
  function WheelFactor(zoomEnable: bool, deltaY: real, s: real): Option<real>
  {
    if !zoomEnable then None
    else if deltaY < 0.0 then (if s > MaxZoom then None else Some(ZoomStep))
    else (if s < MinZoom then None else Some(1.0 / ZoomStep))
  }

  /** The scale after one wheel event. */
  function WheelScale(zoomEnable: bool, deltaY: real, s: real): real
  {
    match WheelFactor(zoomEnable, deltaY, s)
    case Some(a) => s * a
    case None => s
  }

  /** The scale after a series of wheel events. */
  function WheelSeries(zoomEnable: bool, deltas: seq<real>, s: real): real
  {
    if deltas == [] then s else WheelSeries(zoomEnable, deltas[1..], WheelScale(zoomEnable, deltas[0], s))
  }

  /** Wheel up zooms in, wheel down (or no vertical motion) zooms out; a
      scale past a limit is never pushed further past it. */
  lemma WheelDirection(zoomEnable: bool, deltaY: real, s: real)
    requires s > 0.0
    ensures var t := WheelScale(zoomEnable, deltaY, s);
            (zoomEnable && deltaY < 0.0 && s <= MaxZoom ==> t > s) &&
            (zoomEnable && deltaY >= 0.0 && s >= MinZoom ==> t < s) &&
            (!zoomEnable ==> t == s) &&
            (s > MaxZoom ==> t <= s) && (s < MinZoom ==> t >= s)
  {
    if zoomEnable && deltaY >= 0.0 && s >= MinZoom {
      assert s * (1.0 / ZoomStep) == s / ZoomStep;
    }
  }

  /** One wheel event keeps the scale within the zoom range. */
  lemma WheelKeepsZoomBounded(zoomEnable: bool, deltaY: real, s: real)
    requires ZoomBounded(s)
    ensures ZoomBounded(WheelScale(zoomEnable, deltaY, s))
  {
    match WheelFactor(zoomEnable, deltaY, s)
    case Some(a) =>
      if deltaY < 0.0 {
        assert s * a <= MaxZoom * ZoomStep;
      } else {
        assert s * a == s / ZoomStep;
      }
    case None =>
  }

  /** However long the user scrolls, the scale stays within the zoom
      range, and so stays positive. */
  lemma {:induction false} WheelSeriesBounded(zoomEnable: bool, deltas: seq<real>, s: real)
    requires ZoomBounded(s)
    ensures ZoomBounded(WheelSeries(zoomEnable, deltas, s))
    ensures WheelSeries(zoomEnable, deltas, s) > 0.0
  {
    if deltas != [] {
      WheelKeepsZoomBounded(zoomEnable, deltas[0], s);
      WheelSeriesBounded(zoomEnable, deltas[1..], WheelScale(zoomEnable, deltas[0], s));
    }
  }

  /** What one render pass draws: the view transform, the board rectangle
      (with the extents of the previous pass, since the board is drawn
      before the images grow it), the headlines and the placed items. */
  datatype Frame = Frame(transform: seq<real>, board: Rect, headlines: seq<TextCall>, placed: seq<Placement>)

  function FrameOf(groups: seq<Group>, width: int, height: int, s: real, x: real, y: real,
                   measureClient: string -> int, measureBody: string -> int): Frame
  {
    Frame(MatrixOf(s, x, y), Rect(OuterMargX, OuterMargY, width, height),
          Headlines(groups, |groups|), BoardPlaced(groups, |groups|, measureClient, measureBody))
  }

  /** The first frame may draw the board too small, but from the second
      render on the extents no longer change and the board drawn holds
      every image and the bottom of every card (the whole card when its
      image is at least 50 wide). */
  lemma RedrawSettles(groups: seq<Group>, bw: int, bh: int, s: real, x: real, y: real,
                      measureClient: string -> int, measureBody: string -> int)
    ensures var w1, h1 := BoardWidth(groups, |groups|, bw), BoardHeight(groups, |groups|, bh);
            var f := FrameOf(groups, w1, h1, s, x, y, measureClient, measureBody);
            BoardWidth(groups, |groups|, w1) == w1 && BoardHeight(groups, |groups|, h1) == h1 &&
            forall p :: p in f.placed ==> CardWithin(p, f.board.width, f.board.height)
  {
    LayoutIdempotent(groups, bw, bh);
    PlacedWithinBoard(groups, |groups|, bw, bh, measureClient, measureBody);
  }

  class Page {
    const view: View
    const board: Board
    const groups: seq<Group>
    const measureClient: string -> int
    const measureBody: string -> int
    var mouseX: real
    var mouseY: real
    var oldX: real
    var oldY: real
    var button: bool
    var panEnable: bool
    var zoomEnable: bool

    ghost predicate Valid()
      reads this, view, view.matrix
    {
      view.Valid() && ZoomBounded(view.scale)
    }

    /** The page after loading: nothing pressed, nothing enabled, and the
        view attached to the canvas context. */
    constructor (groups: seq<Group>, measureClient: string -> int, measureBody: string -> int)
      ensures Valid() && fresh(view) && fresh(view.matrix) && fresh(board)
      ensures this.groups == groups && this.measureClient == measureClient && this.measureBody == measureBody
      ensures view.dirty && view.scale == ScaleInit && view.x == 0.0 && view.y == 0.0
      ensures board.width == BoardWidthInit && board.height == BoardHeightInit
      ensures mouseX == 0.0 && mouseY == 0.0 && oldX == 0.0 && oldY == 0.0
      ensures !button && !panEnable && !zoomEnable
    {
      this.groups := groups;
      this.measureClient := measureClient;
      this.measureBody := measureBody;
      var v := new View();
      v.AttachContext();
      view := v;
      board := new Board();
      mouseX, mouseY, oldX, oldY := 0.0, 0.0, 0.0, 0.0;
      button, panEnable, zoomEnable := false, false, false;
    }

    /** `render()`: installs the view transform, draws the board, then lays
        out and draws the groups, growing the board. */
    method Render() returns (frame: Frame)
      requires Valid()
      modifies view`dirty, view.matrix, board
      ensures Valid() && !view.dirty
      ensures frame == FrameOf(groups, old(board.width), old(board.height), view.scale, view.x, view.y, measureClient, measureBody)
      ensures board.width == BoardWidth(groups, |groups|, old(board.width))
      ensures board.height == BoardHeight(groups, |groups|, old(board.height))
    {
      var transform := view.Apply();
      var boardRect := Rect(OuterMargX, OuterMargY, board.width, board.height);
      var headlines, placed := board.DrawImages(groups, measureClient, measureBody);
      frame := Frame(transform, boardRect, headlines, placed);
    }

    /** `drawCanvas()`: renders only when the view changed since the last
        render. */
    method DrawCanvas() returns (frame: Option<Frame>)
      requires Valid()
      modifies view`dirty, view.matrix, board
      ensures Valid() && !view.dirty
      ensures frame.Some? <==> old(view.dirty)
      ensures frame.Some? ==>
                frame.value == FrameOf(groups, old(board.width), old(board.height), view.scale, view.x, view.y, measureClient, measureBody) &&
                board.width == BoardWidth(groups, |groups|, old(board.width)) &&
                board.height == BoardHeight(groups, |groups|, old(board.height))
      ensures frame.None? ==> unchanged(board) && unchanged(view.matrix)
    {
      var d := view.IsDirty();
      if d {
        var f := Render();
        frame := Some(f);
      } else {
        frame := None;
      }
    }

    /** `mouseEvent()`: tracks the button and the pointer, and pans the
        view by the pointer's motion while the button is down and panning
        is enabled. */
    method MouseEvent(kind: MouseKind, offsetX: real, offsetY: real)
      requires Valid()
      modifies this, view, view.matrix
      ensures Valid()
      ensures button == (match kind
                         case MouseDown => true
                         case MouseUp => false
                         case MouseOut => false
                         case MouseMove => old(button))
      ensures oldX == old(mouseX) && oldY == old(mouseY) && mouseX == offsetX && mouseY == offsetY
      ensures panEnable == old(panEnable) && zoomEnable == old(zoomEnable)
      ensures view.scale == old(view.scale)
      ensures if button && panEnable
              then view.x == old(view.x) + (offsetX - old(mouseX)) && view.y == old(view.y) + (offsetY - old(mouseY)) && view.dirty
              else unchanged(view) && unchanged(view.matrix)
    {
      if kind == MouseDown {
        button := true;
      }
      if kind == MouseUp || kind == MouseOut {
        button := false;
      }
      oldX, oldY := mouseX, mouseY;
      mouseX, mouseY := offsetX, offsetY;
      if button && panEnable {
        view.Pan(mouseX - oldX, mouseY - oldY);
      }
    }

    /** `mouseWheelEvent()`: zooms about the pointer by one step while
        zooming is enabled, unless the scale is already past the limit in
        that direction. */
    method MouseWheelEvent(offsetX: real, offsetY: real, deltaY: real)
      requires Valid()
      modifies view, view.matrix
      ensures Valid()
      ensures view.scale == WheelScale(zoomEnable, deltaY, old(view.scale))
      ensures match WheelFactor(zoomEnable, deltaY, old(view.scale))
              case Some(a) =>
                view.x == offsetX - (offsetX - old(view.x)) * a && view.y == offsetY - (offsetY - old(view.y)) * a && view.dirty
              case None => unchanged(view) && unchanged(view.matrix)
    {
      WheelKeepsZoomBounded(zoomEnable, deltaY, view.scale);
      if zoomEnable {
        if deltaY < 0.0 {
          if view.scale > MaxZoom {
            return;
          }
          view.ScaleAt(Point(offsetX, offsetY), ZoomStep);
        } else {
          if view.scale < MinZoom {
            return;
          }
          view.ScaleAt(Point(offsetX, offsetY), 1.0 / ZoomStep);
        }
      }
    }

    /** `onKeyDown()`: space enables panning, control enables zooming. */
    method OnKeyDown(keyCode: int)
      modifies this`panEnable, this`zoomEnable
      ensures panEnable == (old(panEnable) || keyCode == KeySpace)
      ensures zoomEnable == (old(zoomEnable) || keyCode == KeyControl)
    {
      if keyCode == KeySpace && !panEnable {
        panEnable := true;
      }
      if keyCode == KeyControl && !zoomEnable {
        zoomEnable := true;
      }
    }

    /** `onKeyUp()`: releasing any key disables both panning and zooming. */
    method OnKeyUp()
      modifies this`panEnable, this`zoomEnable
      ensures !panEnable && !zoomEnable
    {
      panEnable := false;
      zoomEnable := false;
    }

    /** `onResetClick()`: back to the initial scale and the origin. */
    method OnResetClick()
      requires Valid()
      modifies view, view.matrix
      ensures Valid() && view.dirty
      ensures view.scale == ScaleInit && view.x == 0.0 && view.y == 0.0
    {
      view.Reset();
    }
  }
}

=== FILE: settings.dfy ===
/** The fixed configuration of the board: margins, gutters, zoom limits and
    the initial extents of the board, all in board pixels. */
module Settings {
  const OuterMargX: int := 100
  const OuterMargY: int := 200
  const InnerMargX: int := 150
  const InnerMargY: int := 150
  const GutterX: int := 100
  const GutterY: int := 200
  const HeadlineMargin: int := 60

  /** Extra height reserved below every image for its background card. */
  const ImgBgHeight: int := 200
  /** Line height of the wrapped labels under an image. */
  const TextLineHeight: int := 24

  const MaxZoom: real := 1.0
  const MinZoom: real := 0.05
  const ScaleInit: real := 0.5
  /** The multiplicative zoom step of one wheel notch. */
  const ZoomStep: real := 1.1

  /** Board extents before the first layout pass. */
  const BoardWidthInit: int := 0
  const BoardHeightInit: int := 1000

  function Max(a: int, b: int): int
  {
    if a >= b then a else b
  }
}

=== FILE: textwrap.dfy ===
/** Greedy word wrap of a label (`wrapText`): the text is cut into paragraphs
    at line breaks and into words at spaces; words are gathered into a line
    while the measured width fits, and every overflow and every paragraph
    end emits the line and moves down by one line height. Text measurement
    is a parameter. */
module TextWrap {

  /** One `fillText(text, x, y)` call. */
  datatype TextCall = TextCall(text: string, x: int, y: int)

  /** Inverse of `Split`: the parts glued together with `sep` between them. */
  function Join(parts: seq<string>, sep: char): string
    requires |parts| >= 1
  {
    if |parts| == 1 then parts[0] else parts[0] + [sep] + Join(parts[1..], sep)
  }

  /** JavaScript's `s.split(sep)` for a one-character separator: every piece
      between two separators, empty pieces included, and `[""]` for `""`. */
  function Split(s: string, sep: char): (parts: seq<string>)
    ensures |parts| >= 1
  {
    if s == [] then [""]
    else
      var rest := Split(s[1..], sep);
      if s[0] == sep then [""] + rest
      else [[s[0]] + rest[0]] + rest[1..]
  }

  /** The pieces of `Split` hold no separator, and gluing them back with the
      separator gives the original string. */
  lemma {:induction false} SplitJoin(s: string, sep: char)
    ensures forall k :: 0 <= k < |Split(s, sep)| ==> sep !in Split(s, sep)[k]
    ensures Join(Split(s, sep), sep) == s
  {
    if s != [] {
      var rest := Split(s[1..], sep);
      SplitJoin(s[1..], sep);
      if s[0] == sep {
        assert ([""] + rest)[1..] == rest;
        assert s == [s[0]] + s[1..];
      } else {
        var parts := [[s[0]] + rest[0]] + rest[1..];
        assert parts[1..] == rest[1..];
        assert s == [s[0]] + s[1..];
        if |rest| > 1 {
          assert rest == [rest[0]] + rest[1..];
          assert Join(rest, sep) == rest[0] + [sep] + Join(rest[1..], sep);
        }
      }
    }
  }

  lemma {:induction false} SplitPrefix(p: string, r: string, sep: char)
    requires sep !in p
    ensures Split(p + r, sep) == [p + Split(r, sep)[0]] + Split(r, sep)[1..]
  {
    if p != [] {
      assert (p + r)[1..] == p[1..] + r;
      SplitPrefix(p[1..], r, sep);
      assert [p[0]] + (p[1..] + Split(r, sep)[0]) == p + Split(r, sep)[0];
    } else {
      var parts := Split(r, sep);
      assert p + r == r;
      assert p + parts[0] == parts[0];
      assert parts == [parts[0]] + parts[1..];
    }
  }

  /** Splitting the joined parts gives the parts back, when no part holds
      the separator: together with `Split`'s own contract, `Split` and `Join`
      are inverse to each other. */
  lemma {:induction false} JoinSplit(parts: seq<string>, sep: char)
    requires |parts| >= 1
    requires forall k :: 0 <= k < |parts| ==> sep !in parts[k]
    ensures Split(Join(parts, sep), sep) == parts
  {
    if |parts| == 1 {
      SplitPrefix(parts[0], "", sep);
      assert parts[0] + "" == parts[0];
    } else {
      var rest := Join(parts[1..], sep);
      JoinSplit(parts[1..], sep);
      assert ([sep] + rest)[1..] == rest;
      assert parts[0] + [sep] + rest == parts[0] + ([sep] + rest);
      SplitPrefix(parts[0], [sep] + rest, sep);
      assert parts[0] + "" == parts[0];
    }
  }

  /** The words of a paragraph, each followed by one space, in order. */
  function Spaced(words: seq<string>): string
  {
    if words == [] then "" else words[0] + " " + Spaced(words[1..])
  }

  function Concat(lines: seq<string>): string
  {
    if lines == [] then "" else lines[0] + Concat(lines[1..])
  }

  /** The lines the greedy loop emits for `words[n..]` when `line` has been
      gathered so far: a word that makes the line overflow starts a new
      line, except the first word of the paragraph, which always joins. */
  function WrapFrom(words: seq<string>, n: nat, line: string, measure: string -> int, width: int): seq<string>
    requires n <= |words|
    decreases |words| - n
  {
    if n == |words| then [line]
    else
      var test := line + words[n] + " ";
      if measure(test) > width && n > 0 then [line] + WrapFrom(words, n + 1, words[n] + " ", measure, width)
      else WrapFrom(words, n + 1, test, measure, width)
  }

  /** The lines of one paragraph, which always starts on a fresh line. */
  function WrapParagraph(para: string, measure: string -> int, width: int): seq<string>
  {
    WrapFrom(Split(para, ' '), 0, "", measure, width)
  }

  function WrapParagraphs(paras: seq<string>, i: nat, measure: string -> int, width: int): seq<string>
    requires i <= |paras|
    decreases |paras| - i
  {
    if i == |paras| then []
    else WrapParagraph(paras[i], measure, width) + WrapParagraphs(paras, i + 1, measure, width)
  }

  /** All lines `wrapText` draws for `text`, top to bottom. */
  function WrapLines(text: string, measure: string -> int, width: int): seq<string>
  {
    WrapParagraphs(Split(text, '\n'), 0, measure, width)
  }

  /** The draw calls for `lines`, top to bottom, starting at `y`, each one
      line height below the previous one. */
  function LinesAt(lines: seq<string>, x: int, y: int, lineHeight: int): seq<TextCall>
  {
    if lines == [] then [] else [TextCall(lines[0], x, y)] + LinesAt(lines[1..], x, y + lineHeight, lineHeight)
  }

  /** The k-th drawn line is the k-th line of the wrap, at the given x and
      exactly k line heights below the first. */
  lemma {:induction false} LinesAtIndex(lines: seq<string>, x: int, y: int, lineHeight: int, k: nat)
    requires k < |lines|
    ensures |LinesAt(lines, x, y, lineHeight)| == |lines|
    ensures LinesAt(lines, x, y, lineHeight)[k] == TextCall(lines[k], x, y + k * lineHeight)
  {
    if k > 0 {
      LinesAtIndex(lines[1..], x, y + lineHeight, lineHeight, k - 1);
      assert y + lineHeight + (k - 1) * lineHeight == y + k * lineHeight;
    } else {
      LinesAtLength(lines, x, y, lineHeight);
    }
  }

  lemma {:induction false} LinesAtLength(lines: seq<string>, x: int, y: int, lineHeight: int)
    ensures |LinesAt(lines, x, y, lineHeight)| == |lines|
  {
    if lines != [] {
      LinesAtLength(lines[1..], x, y + lineHeight, lineHeight);
    }
  }

  /** The `y` below the last of `lines` when the first is drawn at `y`. */
  function Below(lines: seq<string>, y: int, lineHeight: int): int
  {
    if lines == [] then y else Below(lines[1..], y + lineHeight, lineHeight)
  }

  /** Every drawn line moves `y` down by exactly one line height. */
  lemma {:induction false} BelowCount(lines: seq<string>, y: int, lineHeight: int)
    ensures Below(lines, y, lineHeight) == y + |lines| * lineHeight
  {
    if lines != [] {
      BelowCount(lines[1..], y + lineHeight, lineHeight);
      assert y + lineHeight + (|lines| - 1) * lineHeight == y + |lines| * lineHeight;
    }
  }

  /** Drawing `a` then `b` is drawing `a + b`. */
  lemma {:induction false} LinesAtAppend(a: seq<string>, b: seq<string>, x: int, y: int, lineHeight: int)
    ensures LinesAt(a + b, x, y, lineHeight) == LinesAt(a, x, y, lineHeight) + LinesAt(b, x, Below(a, y, lineHeight), lineHeight)
    ensures Below(a + b, y, lineHeight) == Below(b, Below(a, y, lineHeight), lineHeight)
  {
    if a == [] {
      assert a + b == b;
    } else {
      assert (a + b)[1..] == a[1..] + b;
      LinesAtAppend(a[1..], b, x, y + lineHeight, lineHeight);
    }
  }

  /** A word that overflows the pending line (and is not the paragraph's
      first) draws the pending line and starts the next one. */
  lemma WrapBreak(calls: seq<TextCall>, words: seq<string>, n: nat, line: string, measure: string -> int, width: int,
                  x: int, cy: int, lineHeight: int, target: seq<TextCall>)
    requires n < |words|
    requires measure(line + words[n] + " ") > width && n > 0
    requires calls + LinesAt(WrapFrom(words, n, line, measure, width), x, cy, lineHeight) == target
    ensures (calls + [TextCall(line, x, cy)])
            + LinesAt(WrapFrom(words, n + 1, words[n] + " ", measure, width), x, cy + lineHeight, lineHeight) == target
    ensures Below(WrapFrom(words, n, line, measure, width), cy, lineHeight)
            == Below(WrapFrom(words, n + 1, words[n] + " ", measure, width), cy + lineHeight, lineHeight)
  {
    var tail := WrapFrom(words, n + 1, words[n] + " ", measure, width);
    assert WrapFrom(words, n, line, measure, width) == [line] + tail;
    assert ([line] + tail)[1..] == tail;
    var later := LinesAt(tail, x, cy + lineHeight, lineHeight);
    assert (calls + [TextCall(line, x, cy)]) + later == calls + ([TextCall(line, x, cy)] + later);
  }

  /** One paragraph of `wrapText`: the loop over its words, from an empty
      line, and the closing `fillText` of the last line. Returns the calls
      made and the `y` reached. */
  method WrapWords(measure: string -> int, words: seq<string>, x: int, y: int, lineWidth: int, lineHeight: int)
    returns (calls: seq<TextCall>, yEnd: int)
    ensures calls == LinesAt(WrapFrom(words, 0, "", measure, lineWidth), x, y, lineHeight)
    ensures yEnd == Below(WrapFrom(words, 0, "", measure, lineWidth), y, lineHeight)
  {
    ghost var target := LinesAt(WrapFrom(words, 0, "", measure, lineWidth), x, y, lineHeight);
    ghost var bottom := Below(WrapFrom(words, 0, "", measure, lineWidth), y, lineHeight);
    var line := "";
    var cy := y;
    calls := [];
    var n := 0;
    while n < |words|
      invariant 0 <= n <= |words|
      invariant calls + LinesAt(WrapFrom(words, n, line, measure, lineWidth), x, cy, lineHeight) == target
      invariant Below(WrapFrom(words, n, line, measure, lineWidth), cy, lineHeight) == bottom
    {
      var testLine := line + words[n] + " ";
      var testWidth := measure(testLine);
      if testWidth > lineWidth && n > 0 {
        WrapBreak(calls, words, n, line, measure, lineWidth, x, cy, lineHeight, target);
        calls := calls + [TextCall(line, x, cy)];
        line := words[n] + " ";
        cy := cy + lineHeight;
      } else {
        line := testLine;
      }
      n := n + 1;
    }
    assert WrapFrom(words, n, line, measure, lineWidth) == [line];
    assert calls + ([TextCall(line, x, cy)] + []) == target;
    calls := calls + [TextCall(line, x, cy)];
    yEnd := cy + lineHeight;
  }

  /** `wrapText(context, text, x, y, line_width, line_height)`: the
      `fillText` calls it makes, in order. */
  method WrapText(measure: string -> int, text: string, x: int, y: int, lineWidth: int, lineHeight: int)
    returns (calls: seq<TextCall>)
    ensures calls == LinesAt(WrapLines(text, measure, lineWidth), x, y, lineHeight)
  {
    ghost var target := LinesAt(WrapLines(text, measure, lineWidth), x, y, lineHeight);
    var cy := y;
    var paragraphs := Split(text, '\n');
    calls := [];
    var i := 0;
    while i < |paragraphs|
      invariant 0 <= i <= |paragraphs|
      invariant calls + LinesAt(WrapParagraphs(paragraphs, i, measure, lineWidth), x, cy, lineHeight) == target
    {
      var words := Split(paragraphs[i], ' ');
      var more, below := WrapWords(measure, words, x, cy, lineWidth, lineHeight);
      LinesAtAppend(WrapParagraph(paragraphs[i], measure, lineWidth), WrapParagraphs(paragraphs, i + 1, measure, lineWidth), x, cy, lineHeight);
      calls := calls + more;
      cy := below;
      i := i + 1;
    }
  }

  lemma {:induction false} ConcatAppend(a: seq<string>, b: seq<string>)
    ensures Concat(a + b) == Concat(a) + Concat(b)
  {
    if a != [] {
      assert (a + b)[1..] == a[1..] + b;
      ConcatAppend(a[1..], b);
    } else {
      assert a + b == b;
    }
  }

  /** No word is lost, duplicated or reordered: the emitted lines, read one
      after the other, are the pending line followed by the remaining words,
      each with its trailing space. */
  lemma {:induction false} WrapKeepsWords(words: seq<string>, n: nat, line: string, measure: string -> int, width: int)
    requires n <= |words|
    ensures Concat(WrapFrom(words, n, line, measure, width)) == line + Spaced(words[n..])
    decreases |words| - n
  {
    if n < |words| {
      assert words[n..][1..] == words[n + 1..];
      var test := line + words[n] + " ";
      if measure(test) > width && n > 0 {
        WrapKeepsWords(words, n + 1, words[n] + " ", measure, width);
        ConcatAppend([line], WrapFrom(words, n + 1, words[n] + " ", measure, width));
      } else {
        WrapKeepsWords(words, n + 1, test, measure, width);
      }
    }
  }

  /** A line holding exactly one word and its trailing space. */
  predicate OneWord(l: string)
  {
    |l| > 0 && l[|l| - 1] == ' ' && ' ' !in l[..|l| - 1]
  }

  lemma {:induction false} WrapFromFits(words: seq<string>, n: nat, line: string, measure: string -> int, width: int)
    requires n <= |words|
    requires forall k :: 0 <= k < |words| ==> ' ' !in words[k]
    requires if n == 0 then line == "" && |words| > 0 else measure(line) <= width || OneWord(line)
    ensures forall l :: l in WrapFrom(words, n, line, measure, width) ==> measure(l) <= width || OneWord(l)
    decreases |words| - n
  {
    if n < |words| {
      var test := line + words[n] + " ";
      assert OneWord(words[n] + " ") by {
        assert (words[n] + " ")[..|words[n]|] == words[n];
      }
      if measure(test) > width && n > 0 {
        WrapFromFits(words, n + 1, words[n] + " ", measure, width);
      } else {
        assert n == 0 ==> test == words[n] + " ";
        WrapFromFits(words, n + 1, test, measure, width);
      }
    }
  }

  lemma {:induction false} WrapFromStarts(words: seq<string>, n: nat, line: string, measure: string -> int, width: int)
    requires n <= |words|
    ensures |WrapFrom(words, n, line, measure, width)| >= 1
    ensures line <= WrapFrom(words, n, line, measure, width)[0]
    decreases |words| - n
  {
    if n < |words| {
      var test := line + words[n] + " ";
      if measure(test) > width && n > 0 {
      } else {
        WrapFromStarts(words, n + 1, test, measure, width);
      }
    }
  }

  /** The word a line begins with: everything before its first space. */
  function FirstWord(l: string): string
  {
    if l == [] || l[0] == ' ' then [] else [l[0]] + FirstWord(l[1..])
  }

  lemma {:induction false} FirstWordOf(w: string, rest: string)
    requires ' ' !in w
    ensures FirstWord(w + " " + rest) == w
  {
    if w == [] {
      assert (w + " " + rest)[0] == ' ';
    } else {
      assert (w + " " + rest)[1..] == w[1..] + " " + rest;
      FirstWordOf(w[1..], rest);
    }
  }

  /** Line `prev` was committed because the word that opens `next`, with
      its space, would have made it too wide. */
  predicate Overflows(prev: string, next: string, measure: string -> int, width: int)
  {
    FirstWord(next) + " " <= next && measure(prev + FirstWord(next) + " ") > width
  }

  /** The greedy rule: a line is only ever committed because the next
      line's first word would not fit on it. */
  predicate GreedyBreaks(lines: seq<string>, measure: string -> int, width: int)
  {
    forall k :: 0 < k < |lines| ==> Overflows(lines[k - 1], lines[k], measure, width)
  }

  lemma {:induction false} WrapFromGreedy(words: seq<string>, n: nat, line: string, measure: string -> int, width: int)
    requires n <= |words|
    requires forall k :: 0 <= k < |words| ==> ' ' !in words[k]
    ensures GreedyBreaks(WrapFrom(words, n, line, measure, width), measure, width)
    decreases |words| - n
  {
    if n < |words| {
      var test := line + words[n] + " ";
      if measure(test) > width && n > 0 {
        var R := WrapFrom(words, n + 1, words[n] + " ", measure, width);
        WrapFromGreedy(words, n + 1, words[n] + " ", measure, width);
        WrapFromStarts(words, n + 1, words[n] + " ", measure, width);
        var rest := R[0][|words[n]| + 1..];
        assert R[0] == words[n] + " " + rest;
        FirstWordOf(words[n], rest);
        var L := [line] + R;
        assert WrapFrom(words, n, line, measure, width) == L;
        assert Overflows(line, R[0], measure, width);
        forall k | 1 < k < |L|
          ensures Overflows(L[k - 1], L[k], measure, width)
        {
          assert L[k - 1] == R[k - 2] && L[k] == R[k - 1];
        }
      } else {
        WrapFromGreedy(words, n + 1, test, measure, width);
      }
    }
  }

  /** Every paragraph opens a line of its own, beginning with the
      paragraph's first word, and, read line by line, holds exactly the
      paragraph's words in order, each with a trailing space. Each line
      fits the width or holds a single word that alone is too wide. */
  lemma ParagraphLines(para: string, measure: string -> int, width: int)
    ensures var words := Split(para, ' ');
            var lines := WrapParagraph(para, measure, width);
            |lines| >= 1 && words[0] + " " <= lines[0] &&
            Concat(lines) == Spaced(words) &&
            (forall l :: l in lines ==> measure(l) <= width || OneWord(l))
    ensures GreedyBreaks(WrapParagraph(para, measure, width), measure, width)
  {
    var words := Split(para, ' ');
    SplitJoin(para, ' ');
    WrapFromGreedy(words, 0, "", measure, width);
    WrapKeepsWords(words, 0, "", measure, width);
    assert words[0..] == words;
    WrapFromFits(words, 0, "", measure, width);
    var test := words[0] + " ";
    assert "" + words[0] + " " == test;
    WrapFromStarts(words, 1, test, measure, width);
  }

  /** The words of every paragraph, in order, each with a trailing space. */
  function SpacedParagraphs(paras: seq<string>, i: nat): string
    requires i <= |paras|
    decreases |paras| - i
  {
    if i == |paras| then "" else Spaced(Split(paras[i], ' ')) + SpacedParagraphs(paras, i + 1)
  }

  lemma {:induction false} WrapParagraphsProps(paras: seq<string>, i: nat, measure: string -> int, width: int)
    requires i <= |paras|
    ensures Concat(WrapParagraphs(paras, i, measure, width)) == SpacedParagraphs(paras, i)
    ensures forall l :: l in WrapParagraphs(paras, i, measure, width) ==> measure(l) <= width || OneWord(l)
    ensures |WrapParagraphs(paras, i, measure, width)| >= |paras| - i
    decreases |paras| - i
  {
    if i < |paras| {
      ParagraphLines(paras[i], measure, width);
      WrapParagraphsProps(paras, i + 1, measure, width);
      ConcatAppend(WrapParagraph(paras[i], measure, width), WrapParagraphs(paras, i + 1, measure, width));
    }
  }

  /** The index of the first line of paragraph `j` among the lines of
      paragraphs `i` onward. */
  function Offset(paras: seq<string>, i: nat, j: nat, measure: string -> int, width: int): nat
    requires i <= j <= |paras|
    decreases j - i
  {
    if i == j then 0 else |WrapParagraph(paras[i], measure, width)| + Offset(paras, i + 1, j, measure, width)
  }

  /** Every break in `lines`, the wrapped paragraphs `i` onward, is either
      forced by the next word overflowing the line or the start of a new
      paragraph. */
  predicate BreaksExplained(lines: seq<string>, paras: seq<string>, i: nat, measure: string -> int, width: int)
    requires i <= |paras|
  {
    forall k :: 0 < k < |lines| ==>
      Overflows(lines[k - 1], lines[k], measure, width) ||
      ParagraphStart(paras, i, k, measure, width)
  }

  /** Line `k` of the wrapped paragraphs `i` onward opens a later paragraph. */
  predicate ParagraphStart(paras: seq<string>, i: nat, k: nat, measure: string -> int, width: int)
    requires i <= |paras|
  {
    exists j :: i < j < |paras| && Offset(paras, i, j, measure, width) == k
  }

  lemma {:induction false} WrapParagraphsGreedy(paras: seq<string>, i: nat, measure: string -> int, width: int)
    requires i <= |paras|
    ensures BreaksExplained(WrapParagraphs(paras, i, measure, width), paras, i, measure, width)
    decreases |paras| - i
  {
    if i < |paras| {
      var B := WrapParagraph(paras[i], measure, width);
      var T := WrapParagraphs(paras, i + 1, measure, width);
      var L := WrapParagraphs(paras, i, measure, width);
      assert L == B + T;
      ParagraphLines(paras[i], measure, width);
      WrapParagraphsGreedy(paras, i + 1, measure, width);
      forall k | 0 < k < |L|
        ensures Overflows(L[k - 1], L[k], measure, width) ||
                ParagraphStart(paras, i, k, measure, width)
      {
        if k < |B| {
          assert L[k - 1] == B[k - 1] && L[k] == B[k];
        } else if k == |B| {
          assert Offset(paras, i + 1, i + 1, measure, width) == 0;
          assert k == Offset(paras, i, i + 1, measure, width);
        } else {
          assert L[k - 1] == T[k - |B| - 1] && L[k] == T[k - |B|];
          if !Overflows(L[k - 1], L[k], measure, width) {
            var j :| i + 1 < j < |paras| && k - |B| == Offset(paras, i + 1, j, measure, width);
            assert k == Offset(paras, i, j, measure, width);
          }
        }
      }
    }
  }

  /** What `wrapText` draws for a whole text: all its words in their
      original order, each followed by one space, at least one line per
      paragraph, every line either within `width` or a single word, and
      every line break either at a paragraph boundary or forced by the next
      word not fitting. */
  lemma WrapLinesProps(text: string, measure: string -> int, width: int)
    ensures Concat(WrapLines(text, measure, width)) == SpacedParagraphs(Split(text, '\n'), 0)
    ensures |WrapLines(text, measure, width)| >= |Split(text, '\n')|
    ensures forall l :: l in WrapLines(text, measure, width) ==> measure(l) <= width || OneWord(l)
    ensures BreaksExplained(WrapLines(text, measure, width), Split(text, '\n'), 0, measure, width)
  {
    WrapParagraphsProps(Split(text, '\n'), 0, measure, width);
    WrapParagraphsGreedy(Split(text, '\n'), 0, measure, width);
  }

  /** The words of "aaaa bbbb cccc dddd". */
  lemma FourWords()
    ensures Split("aaaa bbbb cccc dddd", ' ') == ["aaaa", "bbbb", "cccc", "dddd"]
  {
    var words := ["aaaa", "bbbb", "cccc", "dddd"];
    assert Join(words[3..], ' ') == "dddd";
    assert Join(words[2..], ' ') == "cccc dddd";
    assert Join(words[1..], ' ') == "bbbb cccc dddd";
    assert Join(words, ' ') == "aaaa bbbb cccc dddd";
    JoinSplit(words, ' ');
  }

  /** A measure giving every character one unit of width. */
  function CharCount(l: string): int
  {
    |l|
  }

  /** The four words, wrapped ten units wide at one unit per character. */
  lemma FourWordsWrap()
    ensures WrapFrom(["aaaa", "bbbb", "cccc", "dddd"], 0, "", CharCount, 10) == ["aaaa bbbb ", "cccc dddd "]
  {
    var words := ["aaaa", "bbbb", "cccc", "dddd"];
    assert "" + words[0] + " " == "aaaa ";
    assert "aaaa " + words[1] + " " == "aaaa bbbb " && CharCount("aaaa bbbb ") == 10;
    assert "aaaa bbbb " + words[2] + " " == "aaaa bbbb cccc " && CharCount("aaaa bbbb cccc ") == 15;
    assert words[2] + " " == "cccc ";
    assert "cccc " + words[3] + " " == "cccc dddd " && CharCount("cccc dddd ") == 10;
    assert WrapFrom(words, 4, "cccc dddd ", CharCount, 10) == ["cccc dddd "];
    assert WrapFrom(words, 3, "cccc ", CharCount, 10) == ["cccc dddd "];
    assert WrapFrom(words, 2, "aaaa bbbb ", CharCount, 10) == ["aaaa bbbb ", "cccc dddd "];
    assert WrapFrom(words, 1, "aaaa ", CharCount, 10) == ["aaaa bbbb ", "cccc dddd "];
  }

  /** Four four-letter words in a box ten characters wide, each character
      one unit wide: two words fit on a line ("aaaa bbbb " is ten wide),
      a third would not, so the paragraph takes two lines. */
  lemma TwoWordsPerLine()
    ensures WrapParagraph("aaaa bbbb cccc dddd", CharCount, 10) == ["aaaa bbbb ", "cccc dddd "]
  {
    FourWords();
    FourWordsWrap();
  }
}

=== FILE: view.dfy ===
/** The pan/zoom `view`: a uniform scale and an origin position, and the
    2D transform matrix `[a, b, c, d, e, f]` handed to the canvas, which is
    refreshed from them lazily: every change marks the view dirty, and the
    matrix is brought up to date when the view is next applied. */
module ViewTransform {
  import opened Settings

  datatype Point = Point(x: real, y: real)

  const Identity: seq<real> := [1.0, 0.0, 0.0, 1.0, 0.0, 0.0]

  /** The canvas matrix of a view with scale `s` and origin at (x, y). */
  function MatrixOf(s: real, x: real, y: real): seq<real>
  {
    [s, 0.0, 0.0, s, x, y]
  }

  /** Where the board point `p` appears on screen under `MatrixOf(s, x, y)`. */
  function ToScreen(m: seq<real>, p: Point): Point
    requires |m| == 6
  {
    Point(m[0] * p.x + m[2] * p.y + m[4], m[1] * p.x + m[3] * p.y + m[5])
  }

  /** The board point shown at screen point `q` by a view with scale `s`
      and origin (x, y): the inverse of `ToScreen`. */
  function ToBoard(s: real, x: real, y: real, q: Point): (p: Point)
    requires s != 0.0
    ensures ToScreen(MatrixOf(s, x, y), p) == q
  {
    Point((q.x - x) / s, (q.y - y) / s)
  }

  /** Scaling about `at`: the board point under the cursor stays under it. */
  lemma ScaleAtKeepsAnchor(s: real, x: real, y: real, at: Point, amount: real)
    requires s != 0.0 && amount != 0.0
    ensures var p := ToBoard(s, x, y, at);
            ToScreen(MatrixOf(s * amount, at.x - (at.x - x) * amount, at.y - (at.y - y) * amount), p) == at
    ensures ToBoard(s * amount, at.x - (at.x - x) * amount, at.y - (at.y - y) * amount, at) == ToBoard(s, x, y, at)
  {
    var p := ToBoard(s, x, y, at);
    assert p.x * s == at.x - x;
    assert p.y * s == at.y - y;
    assert (s * amount) * p.x + (at.x - (at.x - x) * amount) == at.x + amount * (p.x * s - (at.x - x));
    assert (s * amount) * p.y + (at.y - (at.y - y) * amount) == at.y + amount * (p.y * s - (at.y - y));
    assert (at.x - (at.x - (at.x - x) * amount)) / (s * amount) == ((at.x - x) * amount) / (s * amount) == (at.x - x) / s;
    assert (at.y - (at.y - (at.y - y) * amount)) / (s * amount) == ((at.y - y) * amount) / (s * amount) == (at.y - y) / s;
  }

  /** Scaling about `at` scales every on-screen distance from `at` by
      `amount`. */
  lemma ScaleAtScalesAbout(s: real, x: real, y: real, at: Point, amount: real, p: Point)
    ensures var before := ToScreen(MatrixOf(s, x, y), p);
            var after := ToScreen(MatrixOf(s * amount, at.x - (at.x - x) * amount, at.y - (at.y - y) * amount), p);
            after.x - at.x == (before.x - at.x) * amount && after.y - at.y == (before.y - at.y) * amount
  {
    assert s * amount * p.x + (at.x - (at.x - x) * amount) - at.x == (s * p.x + x - at.x) * amount;
    assert s * amount * p.y + (at.y - (at.y - y) * amount) - at.y == (s * p.y + y - at.y) * amount;
  }

  /** Zooming in and back out by the reciprocal amount about the same
      point restores scale and position. */
  lemma ScaleAtUndo(s: real, x: real, y: real, at: Point, amount: real)
    requires amount != 0.0
    ensures var s1, x1, y1 := s * amount, at.x - (at.x - x) * amount, at.y - (at.y - y) * amount;
            s1 * (1.0 / amount) == s &&
            at.x - (at.x - x1) * (1.0 / amount) == x && at.y - (at.y - y1) * (1.0 / amount) == y
  {
    assert amount * (1.0 / amount) == 1.0;
    assert (at.x - x) * amount * (1.0 / amount) == at.x - x;
    assert (at.y - y) * amount * (1.0 / amount) == at.y - y;
  }

  /** Panning moves every board point on screen by the pan amount. */
  lemma PanTranslates(s: real, x: real, y: real, dx: real, dy: real, p: Point)
    ensures ToScreen(MatrixOf(s, x + dx, y + dy), p) ==
            Point(ToScreen(MatrixOf(s, x, y), p).x + dx, ToScreen(MatrixOf(s, x, y), p).y + dy)
  {
  }

  class View {
    var scale: real
    var x: real
    var y: real
    var dirty: bool
    const matrix: array<real>

    /** A clean view's matrix is its scale and position. */
    ghost predicate Valid()
      reads this, matrix
    {
      matrix.Length == 6 && (!dirty ==> matrix[..] == MatrixOf(scale, x, y))
    }

    /** The identity matrix, the initial scale, the origin at (0, 0), and
        dirty so that the first `apply` installs the scale. */
    constructor ()
      ensures Valid() && fresh(matrix)
      ensures matrix[..] == Identity && dirty
      ensures scale == ScaleInit && x == 0.0 && y == 0.0
    {
      scale := ScaleInit;
      x, y := 0.0, 0.0;
      dirty := true;
      matrix := new real[6] [1.0, 0.0, 0.0, 1.0, 0.0, 0.0];
    }

    /** The `context` setter: a new context needs the transform again. */
    method AttachContext()
      requires Valid()
      modifies this`dirty
      ensures Valid() && dirty
    {
      dirty := true;
    }

    method IsDirty() returns (d: bool)
      ensures d == dirty
    {
      d := dirty;
    }

    method Update()
      requires matrix.Length == 6
      modifies this`dirty, matrix
      ensures Valid() && !dirty
      ensures matrix[..] == MatrixOf(scale, x, y)
    {
      dirty := false;
      matrix[0], matrix[3] := scale, scale;
      matrix[1], matrix[2] := 0.0, 0.0;
      matrix[4] := x;
      matrix[5] := y;
    }

    /** `apply()`: the transform handed to the context is always the
        current scale and position, however many changes came since the
        last update. */
    method Apply() returns (transform: seq<real>)
      requires Valid()
      modifies this`dirty, matrix
      ensures Valid() && !dirty
      ensures transform == MatrixOf(scale, x, y)
    {
      if dirty {
        Update();
      }
      transform := matrix[..];
    }

    method Pan(dx: real, dy: real)
      requires Valid()
      modifies this, matrix
      ensures Valid() && dirty
      ensures scale == old(scale) && x == old(x) + dx && y == old(y) + dy
      ensures matrix[..] == MatrixOf(old(scale), old(x), old(y))
    {
      if dirty {
        Update();
      }
      x := x + dx;
      y := y + dy;
      dirty := true;
    }

    /** Scales by `amount` about the screen point `at`. */
    method ScaleAt(at: Point, amount: real)
      requires Valid()
      modifies this, matrix
      ensures Valid() && dirty
      ensures scale == old(scale) * amount
      ensures x == at.x - (at.x - old(x)) * amount && y == at.y - (at.y - old(y)) * amount
      ensures matrix[..] == MatrixOf(old(scale), old(x), old(y))
    {
      if dirty {
        Update();
      }
      scale := scale * amount;
      x := at.x - (at.x - x) * amount;
      y := at.y - (at.y - y) * amount;
      dirty := true;
    }

    method Reset()
      requires Valid()
      modifies this, matrix
      ensures Valid() && dirty
      ensures scale == ScaleInit && x == 0.0 && y == 0.0
      ensures matrix[..] == MatrixOf(old(scale), old(x), old(y))
    {
      if dirty {
        Update();
      }
      scale := ScaleInit;
      x, y := 0.0, 0.0;
      dirty := true;
    }
  }
}

=== FILE: wrappers.dfy ===
module Wrappers {
  datatype Option<+T> = None | Some(value: T)
}
